=== FILE: README.md ===
# To-do list: a Dafny model of the task-list logic

The application is a React Native to-do list. Its Home screen keeps a list of
tasks, filters it by a pending/completed tab and a case-insensitive title
search, counts each tab, and adds, deletes (after a confirmation) and toggles
tasks. It writes the whole list to on-device storage before each change takes
effect. A creation modal validates the new task's title and due date. A detail
screen edits a local copy of one task and sends toggle and delete requests back
to the list through callbacks.

This project models that logic as pure functions over immutable data:

- `optional.dfy`: `Option`, which stands for `Date | null`.
- `seqs.dfy`: `Array.prototype.filter` as an order-preserving filter, with its full specification.
- `text.dfy`: `trim`, ASCII `toLowerCase` and `includes`, with the substring relation `includes` decides.
- `tasks.dfy`: the `Task` record (`types.ts`) and the three priority labels.
- `home.dfy`: the Home screen's list state and its handlers.
- `create_task.dfy`: the creation modal's form state and its handlers.
- `task_detail.dfy`: the detail screen's local state and its handlers.
- `flows.dfy`: the screens wired together through their callbacks, an example run that adds, toggles and deletes one task, and the finding below.

Storage, the clock and id generation are parameters:

- the outcome of each storage write is `written: bool`;
- what a read yields is `StorageRead`;
- "now" and the new id are arguments;
- dates are millisecond timestamps (`int`).

`setTasks` runs only after the awaited write, so a failed write leaves the list
unchanged. The detail screen's update callback is `onToggleComplete`, and there
is no separate replace operation.

## Model

| member | source | states |
|---|---|---|
| Text.TrimStart | src/components/CreateTask/index.tsx:28 | drops exactly the leading whitespace: a suffix of the input, all of the dropped part whitespace, the first kept character not whitespace |
| Text.TrimEnd | src/components/CreateTask/index.tsx:28 | drops exactly the trailing whitespace: a prefix of the input, all of the dropped part whitespace, the last kept character not whitespace |
| Text.Trim | src/components/CreateTask/index.tsx:28 | `trim` returns a contiguous piece of the title with only whitespace before and after it, and the piece neither starts nor ends with whitespace |
| Text.IsBlank | src/components/CreateTask/index.tsx:28 | `!task.trim()` holds exactly when stripping the leading whitespace consumes the whole title |
| Text.BlankIffAllWhitespace | src/components/CreateTask/index.tsx:28 | `!title.trim()` holds exactly when every character of the title is whitespace, so the empty title is blank |
| Text.ToLower | src/screens/Home/index.tsx:117 | lower-casing keeps the length, maps each character on its own and leaves no upper-case ASCII letter |
| Text.ToLowerIdempotent | src/screens/Home/index.tsx:117 | lower-casing an already lower-cased string changes nothing |
| Text.IncludesIffOccurs | src/screens/Home/index.tsx:117 | `includes` is true exactly when the query occurs as a contiguous piece at some index of the string |
| Text.Includes | src/screens/Home/index.tsx:117 | `includes` is false when the query is longer than the string, and true when the query is a prefix of the string; `Text.IncludesIffOccurs` gives the full characterisation |
| Text.IncludesEmpty | src/screens/Home/index.tsx:117 | every string includes the empty query |
| Seqs.Filter | src/screens/Home/index.tsx:115-118 | `filter` returns no more elements than it is given, and each one satisfies the predicate |
| Seqs.FilterSpec | src/screens/Home/index.tsx:115-118 | `filter` keeps every occurrence of every matching element, only elements of the input, in input order (a subsequence) |
| Seqs.FilterMembership | src/screens/Home/index.tsx:115-118 | an element is in the filtered list exactly when it is in the input and satisfies the predicate |
| Seqs.FilterPartition | src/screens/Home/index.tsx:152 | filtering by a predicate and by its complement split the input's length between them |
| Seqs.FilterConjunction | src/screens/Home/index.tsx:115-118 | filtering by `p && q` equals filtering by `p` and then by `q` |
| Seqs.FilterConcat | src/screens/Home/index.tsx:152 | filtering a concatenation concatenates the filtered parts |
| Seqs.FilterEmptyIffNone | src/screens/Home/index.tsx:152 | a filter keeps nothing exactly when no element satisfies the predicate |
| Home.LoadTasks | src/screens/Home/index.tsx:30-39 | a parsed saved list replaces the tasks; a missing value and a read or parse failure leave the tasks unchanged; the tab and search are kept |
| Home.LoadWithoutSavedListIsEmpty | src/screens/Home/index.tsx:21-39 | on mount, with no saved list or a failed read, the list is empty and both counters are zero |
| Home.FilteredTasks | src/screens/Home/index.tsx:115-118 | the view is a subsequence of the list, holds only tasks of the active tab whose title matches, and keeps every occurrence of each such task |
| Home.TitleMatchesIffOccurs | src/screens/Home/index.tsx:117 | the title test holds exactly when the lower-cased query is a substring of the lower-cased title |
| Home.FilteredMembership | src/screens/Home/index.tsx:115-118 | a task is in the view exactly when it is in the list, in the active tab, and its title matches the query |
| Home.FilteredIsSearchWithinBucket | src/screens/Home/index.tsx:41-46 | the two filters combine by AND: the view is the title search applied to the active tab's tasks |
| Home.EmptyQueryShowsWholeBucket | src/screens/Home/index.tsx:116-117 | with an empty query the view is the whole active tab, and its length is that tab's counter |
| Home.BucketCount | src/screens/Home/index.tsx:152 | a tab's counter is at most the list length, and it is zero exactly when no task in the whole list has that tab's completion flag |
| Home.CountsSumToLength | src/screens/Home/index.tsx:152 | the pending counter plus the completed counter equals the list length |
| Home.ShowBucket | src/screens/Home/index.tsx:147 | pressing a tab selects that tab, keeps the list and the query, and the view then holds exactly the list's tasks of that tab whose title matches the query |
| Home.Search | src/screens/Home/index.tsx:129 | typing a query stores it, keeps the list and the tab, and the view then holds exactly the active tab's tasks whose title matches the new query |
| Home.CountersIgnoreViewState | src/screens/Home/index.tsx:129-152 | pressing a tab (`ShowBucket`) or typing a query (`Search`) leaves both counters unchanged |
| Home.SaveTask | src/screens/Home/index.tsx:49-67 | after a successful write, exactly one task is appended: it is pending and carries the given id and fields, and earlier tasks are unchanged and in order; after a failed write the state is unchanged |
| Home.RemoveId | src/screens/Home/index.tsx:88 | no remaining task has the id; every task with another id keeps all its occurrences; the result is a subsequence of the list |
| Home.RemoveAbsentIdIsIdentity | src/screens/Home/index.tsx:88 | removing an id that no task has leaves the list unchanged |
| Home.RemoveUniqueIdCutsOne | src/screens/Home/index.tsx:88 | with unique ids, removing a present id cuts out exactly that task, so the list shrinks by one |
| Home.DeleteTask | src/screens/Home/index.tsx:87-96 | after a successful write no task with the id remains; after a failed write the state is unchanged |
| Home.ConfirmDelete | src/screens/Home/index.tsx:69-85 | "Cancelar" leaves the state unchanged; only "Excluir" deletes |
| Home.ToggleId | src/screens/Home/index.tsx:99-104 | the length is kept; tasks with the id have only `completed` flipped; all other tasks are unchanged |
| Home.ToggleIdTwice | src/screens/Home/index.tsx:99-104 | toggling the same id twice restores the list |
| Home.ToggleUniqueIdFlipsOne | src/screens/Home/index.tsx:99-104 | with unique ids, toggling the id of the task at `i` changes that task alone |
| Home.OnToggleComplete | src/screens/Home/index.tsx:98-113 | after a successful write the stored task with the passed record's id is toggled, whatever else the record holds; after a failed write the state is unchanged |
| Home.ToggleTwiceRestores | src/screens/Home/index.tsx:98-113 | two successful toggles with records of the same id restore the state, even when the records' other fields differ |
| Home.BucketCountConcat | src/screens/Home/index.tsx:152 | a counter over two joined lists is the sum of their counters |
| Home.ToggleMovesBetweenBuckets | src/screens/Home/index.tsx:152 | with unique ids, toggling a task takes one from its tab's counter and adds one to the other tab's counter |
| CreateTask.ResetForm | src/components/CreateTask/index.tsx:20-25 | title and description become empty and the due date null; the priority and the picker flags survive |
| CreateTask.HandleAddTask | src/components/CreateTask/index.tsx:27-38 | accepts exactly when the title is not blank and the due date is not before now; a blank title is reported first; a refusal leaves the form unchanged; an acceptance hands over the untrimmed fields and resets the form, keeping the priority |
| CreateTask.InThePast | src/components/CreateTask/index.tsx:32 | a due date counts as past exactly when it is present and strictly before now, so an absent date or a date equal to now never does |
| CreateTask.WhitespaceTitleRejected | src/components/CreateTask/index.tsx:28-31 | a title made only of whitespace is refused as blank, whatever the date |
| CreateTask.PresentTitleAndDateAccepted | src/components/CreateTask/index.tsx:28-36 | a title with a non-whitespace character and a due date that is absent, now or later is accepted, with the title untrimmed |
| CreateTask.EditTitle | src/components/CreateTask/index.tsx:63 | typing in the title field sets the title to the text typed and changes nothing else |
| CreateTask.EditDescription | src/components/CreateTask/index.tsx:69 | typing in the description field sets the description and changes nothing else |
| CreateTask.OpenPriorityModal | src/components/CreateTask/index.tsx:72 | pressing the priority button opens the priority popup and changes nothing else |
| CreateTask.OpenDatePicker | src/components/CreateTask/index.tsx:77 | pressing the calendar button opens the date picker and changes nothing else |
| CreateTask.ClosePriorityModal | src/components/CreateTask/index.tsx:106-108 | dismissing the priority popup closes it and changes nothing else |
| CreateTask.OnDateChange | src/components/CreateTask/index.tsx:87-90 | the picker closes; a selected date replaces the due date; no selection keeps the previous one; the other fields are unchanged |
| CreateTask.SelectPriority | src/components/CreateTask/index.tsx:114-141 | a priority button sets that priority and closes the popup; the other fields are unchanged |
| CreateTask.Step | src/components/CreateTask/index.tsx:59-141 | every interaction with the form keeps its priority one of the three labels |
| CreateTask.RunKeepsValid | src/components/CreateTask/index.tsx:15 | from a form whose priority is a label, any run of interactions keeps it one |
| CreateTask.AcceptedRequestsAreWellFormed | src/components/CreateTask/index.tsx:13-38 | from the initial form (empty fields, priority "Baixa", no date), after any interactions, an accepted submit has a non-blank title, a date not in the past, and a priority among the three labels |
| TaskDetail.Seed | src/screens/TaskDetail/index.tsx:16-22 | the screen opens on the task it was given, with both pickers closed |
| TaskDetail.SeedShowsSnapshot | src/screens/TaskDetail/index.tsx:16-20 | the local title, description, priority, completion flag and due date start equal to the snapshot's |
| TaskDetail.HandleDelete | src/screens/TaskDetail/index.tsx:24-27 | delete asks for the snapshot's id |
| TaskDetail.DeleteIgnoresLocalEdits | src/screens/TaskDetail/index.tsx:24-27 | the id sent by delete does not depend on local edits |
| TaskDetail.HandleToggleComplete | src/screens/TaskDetail/index.tsx:29-34 | the record sent equals the snapshot except for `completed`, which is the negation of the local flag; the local flag flips and nothing else local changes |
| TaskDetail.ToggleIgnoresLocalEdits | src/screens/TaskDetail/index.tsx:29-34 | local title, description, priority and date edits never reach the record sent by the toggle |
| TaskDetail.ToggleTwiceRestoresDetail | src/screens/TaskDetail/index.tsx:29-34 | two toggles restore the screen, and the two records sent carry opposite flags |
| TaskDetail.OnDateChange | src/screens/TaskDetail/index.tsx:36-44 | the picker always closes; only a `"set"` event with a date changes the due date; any other event keeps it; nothing else changes |
| TaskDetail.HandlePrioritySelect | src/screens/TaskDetail/index.tsx:46-49 | the local priority becomes the chosen level and the level list closes; nothing else changes |
| TaskDetail.EditTitle | src/screens/TaskDetail/index.tsx:58 | typing in the title field sets the local title and changes nothing else |
| TaskDetail.EditDescription | src/screens/TaskDetail/index.tsx:65 | typing in the description field sets the local description and changes nothing else |
| TaskDetail.OpenDatePicker | src/screens/TaskDetail/index.tsx:71 | pressing the date field opens the date picker and changes nothing else |
| TaskDetail.OpenPriorityPicker | src/screens/TaskDetail/index.tsx:85 | pressing the priority field opens the priority list and changes nothing else |
| TaskDetail.LocalEditsAreNeverSent | src/screens/TaskDetail/index.tsx:16-49 | after any run of local edits, the snapshot and the local flag are unchanged, so the toggle and delete send what they would have sent without the edits |
| Flows.Submit | src/components/CreateTask/index.tsx:36-37 | a refused submit changes nothing; an accepted submit resets the form even if the write fails; after a successful write, the list gains one pending task with the form's fields and a non-blank title, the pending counter grows by one and the completed counter is unchanged |
| Flows.Dispatch | src/screens/Home/index.tsx:174-178 | a cancelled delete or a failed write changes nothing; a confirmed, written delete removes exactly the tasks with the id, keeping the others in order; a written update toggles the task with the record's id and leaves every other task unchanged; the tab and query are kept |
| Flows.FirstCommandAgrees | src/screens/Home/index.tsx:174-178 | for the first command of a visit, before the list has changed, the callbacks as written (`DispatchBound`) and `Dispatch` give the same state |
| Flows.DetailToggleStaysInStep | src/screens/TaskDetail/index.tsx:29-34 | a toggle from the detail screen against the current list keeps the screen's flag equal to the stored one when the write succeeds; when it fails the list is unchanged but the two disagree |
| Flows.DeleteFromDetailRemovesSnapshot | src/screens/TaskDetail/index.tsx:24-27 | a confirmed delete from the detail screen removes exactly the snapshot's task, whatever was edited locally |
| Flows.DispatchBound | src/screens/Home/index.tsx:174-178 | the callbacks as written compute the new list from the list at the time the screen was opened: a written update toggles the id in that list and a confirmed, written delete removes the id from it, and the result replaces the current list; a cancelled delete or a failed write changes nothing |
| Flows.StaleToggleTwiceDiverges | src/screens/Home/index.tsx:174-178 | with the callbacks as written, for any list with unique ids and any task in it, two toggles in one visit store that task flipped once while the screen shows its original flag, so the two are out of step |
| Flows.CurrentToggleTwiceStaysInStep | src/screens/Home/index.tsx:98-113 | with callbacks that read the current list, for any list with unique ids and any task in it, two toggles restore the list and keep the screen in step |
| Flows.BuyMilkAdded | src/screens/Home/index.tsx:49-67 | adding "Buy milk" to an empty list gives one pending task, counters 1 and 0, and a pending view holding that task |
| Flows.BuyMilkToggled | src/screens/Home/index.tsx:98-113 | toggling it from its detail screen gives counters 0 and 1 and an empty pending view |
| Flows.BuyMilkDeleted | src/screens/Home/index.tsx:87-96 | deleting it after confirmation gives an empty list, both counters zero and an empty view in either tab |

## Findings

| source | as written | input that shows it | evidently intended | confidence | as-written member | corrected member |
|---|---|---|---|---|---|---|
| src/screens/Home/index.tsx:174-178 | the detail screen receives `confirmDelete` and `onToggleComplete` as navigation parameters, so they close over the task list as it was when the screen was opened | any list with unique ids, open any task, press the toggle twice: the second call recomputes from the original list, so the task stays stored flipped while the screen shows its original flag | each toggle flips the task in the current list, keeping the screen and the list in step | likely; not executed | Flows.StaleToggleTwiceDiverges | Flows.CurrentToggleTwiceStaysInStep |

The rest of the model dispatches against the current list (`Flows.Dispatch`).
`Flows.FirstCommandAgrees` shows that this agrees with the code as written for
the first command of a visit, which covers the example run and the single
toggle and delete lemmas.

## Left out

- Storage: AsyncStorage and the JSON round trip are left out. Writes are a boolean outcome and reads a three-way result. Dates that come back from storage as strings are not modelled.
- Clock and ids: `Date.now()` ids and `new Date()` are parameters. Id uniqueness is assumed where a lemma needs it (`UniqueIds`), because the application does not enforce it.
- Text.ToLower: maps only ASCII `A`–`Z`, because JavaScript's full Unicode case mapping is a large table. Search is therefore case-insensitive for ASCII letters only.
- Alerts: the success and error alerts and the console logging are presentation only. The confirmation alert is modelled as the `DeleteChoice` parameter.
- Navigation and widgets: `goBack`, the modal's visibility and `onClose`, keyboard dismissal, and the DateTimePicker widget are left out. The picker's `onChange` is modelled; the widget is not.
- Concurrency: the asynchronous `loadTasks` racing with user actions is not modelled. Interleavings of the unawaited `saveTask` write with later handlers are not modelled either; each handler runs to completion in turn.
- Presentation: `src/components/Task/index.tsx`, the `getColor` helpers, date formatting, the empty-state placeholder and all styles are pure presentation.
- Detail edits: local title, description, priority and due-date edits are modelled (`TaskDetail.EditTitle`, `TaskDetail.EditDescription`, `TaskDetail.HandlePrioritySelect`, `TaskDetail.OnDateChange`). None of them is ever written back, because the source has no save action for them.

=== FILE: create_task.dfy ===
/**
  The task-creation modal: its form state, the submit handler that
  validates the title and the due date before handing the fields to the
  list, the reset that follows a successful submit, and the pickers.
 */
module CreateTask {
  import opened Optional
  import opened Tasks
  import opened Text

  /** The modal's local state. */
  datatype Form = Form(
    title: string,
    description: string,
    priority: string,
    dueDate: Option<Timestamp>,
    showDatePicker: bool,
    showPriorityModal: bool)

  /** The state when the modal is first mounted. */
  const InitialForm: Form := Form("", "", Low, None, false, false)

  /** Why a submit was refused; each shows an alert and changes nothing. */
  datatype Rejection = BlankTitle | PastDueDate

  /** The arguments handed to the list's add callback. */
  datatype AddRequest = AddRequest(
    title: string,
    description: string,
    priority: string,
    dueDate: Option<Timestamp>)

  /** The outcome of pressing the send button. */
  datatype Submission =
    | Rejected(reason: Rejection, form: Form)
    | Accepted(request: AddRequest, form: Form)

  /** `resetForm`: clears title, description and due date; the priority,
      the picker flags, and so the next task's default, survive. */
  function ResetForm(f: Form): (r: Form)
    ensures r.title == "" && r.description == "" && r.dueDate == None
    ensures r.priority == f.priority
    ensures r.showDatePicker == f.showDatePicker && r.showPriorityModal == f.showPriorityModal
  {
    f.(title := "", description := "", dueDate := None)
  }

  /** A due date strictly before `now`; an absent date never is. */
  predicate InThePast(dueDate: Option<Timestamp>, now: Timestamp): (b: bool)
    ensures dueDate.None? ==> !b
    ensures dueDate == Some(now) ==> !b
    ensures b <==> dueDate.Some? && dueDate.value < now
  {
    dueDate.Some? && dueDate.value < now
  }

  /** `handleAddTask` at clock time `now`. A blank title is refused first,
      then a past due date; otherwise the untrimmed fields are handed over
      and the form is reset. */
  function HandleAddTask(f: Form, now: Timestamp): (r: Submission)
    ensures r.Accepted? <==> !IsBlank(f.title) && !InThePast(f.dueDate, now)
    ensures r.Rejected? ==> r.form == f
    ensures r.Rejected? ==> (r.reason == BlankTitle <==> IsBlank(f.title))
    ensures r.Accepted? ==>
      r.request == AddRequest(f.title, f.description, f.priority, f.dueDate)
    ensures r.Accepted? ==>
      r.form.title == "" && r.form.description == "" && r.form.dueDate == None
      && r.form.priority == f.priority
  {
    if IsBlank(f.title) then Rejected(BlankTitle, f)
    else if InThePast(f.dueDate, now) then Rejected(PastDueDate, f)
    else Accepted(AddRequest(f.title, f.description, f.priority, f.dueDate), ResetForm(f))
  }

  /** A title made only of whitespace is refused whatever the date. */
  lemma WhitespaceTitleRejected(f: Form, now: Timestamp)
    requires forall i :: 0 <= i < |f.title| ==> IsWhitespace(f.title[i])
    ensures HandleAddTask(f, now) == Rejected(BlankTitle, f)
  {
  }

  /** A title with a non-whitespace character and a due date that is absent,
      now, or later is accepted. */
  lemma PresentTitleAndDateAccepted(f: Form, now: Timestamp, i: int)
    requires 0 <= i < |f.title| && !IsWhitespace(f.title[i])
    requires f.dueDate.None? || f.dueDate.value >= now
    ensures HandleAddTask(f, now).Accepted?
    ensures HandleAddTask(f, now).request.title == f.title
  {
  }

  /** Typing in the title field. */
  function EditTitle(f: Form, title: string): (r: Form)
    ensures r.title == title && r.(title := f.title) == f
  {
    f.(title := title)
  }

  /** Typing in the description field. */
  function EditDescription(f: Form, description: string): (r: Form)
    ensures r.description == description && r.(description := f.description) == f
  {
    f.(description := description)
  }

  /** Pressing the calendar button. */
  function OpenDatePicker(f: Form): (r: Form)
    ensures r.showDatePicker && r.(showDatePicker := f.showDatePicker) == f
  {
    f.(showDatePicker := true)
  }

  /** The date picker's `onChange`: it always closes, and a selected date
      replaces the due date while no selection keeps the previous one. */
  function OnDateChange(f: Form, selected: Option<Timestamp>): (r: Form)
    ensures !r.showDatePicker
    ensures selected.Some? ==> r.dueDate == selected
    ensures selected.None? ==> r.dueDate == f.dueDate
    ensures r.title == f.title && r.description == f.description && r.priority == f.priority
    ensures r.showPriorityModal == f.showPriorityModal
  {
    f.(showDatePicker := false, dueDate := selected.OrElse(f.dueDate))
  }

  /** Pressing the priority button. */
  function OpenPriorityModal(f: Form): (r: Form)
    ensures r.showPriorityModal && r.(showPriorityModal := f.showPriorityModal) == f
  {
    f.(showPriorityModal := true)
  }

  /** Tapping outside the priority popup or pressing back. */
  function ClosePriorityModal(f: Form): (r: Form)
    ensures !r.showPriorityModal && r.(showPriorityModal := f.showPriorityModal) == f
  {
    f.(showPriorityModal := false)
  }

  /** One of the three priority buttons: sets the priority and closes the
      popup. */
  function SelectPriority(f: Form, level: string): (r: Form)
    requires level in PriorityLevels
    ensures r.priority == level && !r.showPriorityModal
    ensures r.title == f.title && r.description == f.description && r.dueDate == f.dueDate
    ensures r.showDatePicker == f.showDatePicker
  {
    f.(priority := level, showPriorityModal := false)
  }

  /** The form's priority is always one of the three labels. */
  ghost predicate Valid(f: Form) {
    f.priority in PriorityLevels
  }

  /** The user's interactions with the form. */
  datatype FormEvent =
    | TypeTitle(title: string)
    | TypeDescription(description: string)
    | PressCalendar
    | PickDate(selected: Option<Timestamp>)
    | PressPriority
    | DismissPriority
    | PickPriority(index: nat)
    | PressSend(now: Timestamp)

  /** The form after one interaction; a priority index outside the three
      buttons is not an event the screen can produce and is ignored. */
  function Step(f: Form, e: FormEvent): (r: Form)
    ensures Valid(f) ==> Valid(r)
  {
    match e
    case TypeTitle(title) => EditTitle(f, title)
    case TypeDescription(description) => EditDescription(f, description)
    case PressCalendar => OpenDatePicker(f)
    case PickDate(selected) => OnDateChange(f, selected)
    case PressPriority => OpenPriorityModal(f)
    case DismissPriority => ClosePriorityModal(f)
    case PickPriority(index) =>
      if index < |PriorityLevels| then SelectPriority(f, PriorityLevels[index]) else f
    case PressSend(now) => HandleAddTask(f, now).form
  }

  /** The form after a run of interactions from `f`. */
  function Run(f: Form, events: seq<FormEvent>): Form
    decreases |events|
  {
    if |events| == 0 then f else Run(Step(f, events[0]), events[1..])
  }

  /** Whatever the user does, every submit the form accepts carries a
      non-blank title, a due date that is not in the past, and one of the
      three priority labels. */
  lemma {:induction false} AcceptedRequestsAreWellFormed(events: seq<FormEvent>, now: Timestamp)
    ensures var f := Run(InitialForm, events);
      var r := HandleAddTask(f, now);
      r.Accepted? ==>
        !IsBlank(r.request.title) && !InThePast(r.request.dueDate, now)
        && r.request.priority in PriorityLevels
  {
    RunKeepsValid(InitialForm, events);
  }

  /** Every run of interactions from a valid form ends in a valid form. */
  lemma {:induction false} RunKeepsValid(f: Form, events: seq<FormEvent>)
    requires Valid(f)
    ensures Valid(Run(f, events))
    decreases |events|
  {
    if |events| > 0 {
      RunKeepsValid(Step(f, events[0]), events[1..]);
    }
  }
}

=== FILE: flows.dfy ===
/**
  The screens wired together: the creation modal hands accepted fields to
  the list's `saveTask`, and the detail screen's commands reach the list
  through the `onDelete` (= `confirmDelete`) and `onUpdate`
  (= `onToggleComplete`) callbacks it was opened with.
 */
module Flows {
  import opened Optional
  import opened Tasks
  import opened Text
  import opened Home
  import opened CreateTask
  import opened TaskDetail

  /** The list and the modal after pressing send. */
  datatype AddFlow = AddFlow(home: HomeState, form: Form)

  /** Pressing send at clock time `now`; `id` is the creation time's string
      and `written` the outcome of the storage write. The modal does not
      wait for the write: an accepted submit resets the form either way. */
  function Submit(s: HomeState, f: Form, now: Timestamp, id: string, written: bool): (r: AddFlow)
    ensures HandleAddTask(f, now).Rejected? ==> r == AddFlow(s, f)
    ensures HandleAddTask(f, now).Accepted? ==> r.form == ResetForm(f)
    ensures HandleAddTask(f, now).Accepted? && !written ==> r.home == s
    ensures HandleAddTask(f, now).Accepted? && written ==>
      |r.home.tasks| == |s.tasks| + 1 && r.home.tasks[..|s.tasks|] == s.tasks
      && r.home.tasks[|s.tasks|] == Task(id, f.title, f.description, f.priority, false, f.dueDate)
      && !IsBlank(r.home.tasks[|s.tasks|].title)
      && BucketCount(r.home.tasks, false) == BucketCount(s.tasks, false) + 1
      && BucketCount(r.home.tasks, true) == BucketCount(s.tasks, true)
  {
    match HandleAddTask(f, now)
    case Rejected(_, form) => AddFlow(s, form)
    case Accepted(req, form) =>
      var home := SaveTask(s, id, req.title, req.description, req.priority, req.dueDate, written);
      var added := Task(id, req.title, req.description, req.priority, false, req.dueDate);
      BucketCountConcat(s.tasks, [added], false);
      BucketCountConcat(s.tasks, [added], true);
      assert written ==> home.tasks == s.tasks + [added];
      AddFlow(home, form)
  }

  /** The list's handling of a command from the detail screen: a delete
      request goes through the confirmation, an update toggles by id. */
  function Dispatch(s: HomeState, c: Command, choice: DeleteChoice, written: bool): (r: HomeState)
    ensures c.DeleteRequest? && choice == Cancel ==> r == s
    ensures !written ==> r == s
    ensures c.DeleteRequest? && choice == Delete && written ==>
      r.tasks == RemoveId(s.tasks, c.id)
      && forall k :: 0 <= k < |r.tasks| ==> r.tasks[k].id != c.id
    ensures c.UpdateRequest? && written ==> r.tasks == ToggleId(s.tasks, c.task.id)
    ensures r.showCompleted == s.showCompleted && r.searchQuery == s.searchQuery
  {
    match c
    case DeleteRequest(id) => ConfirmDelete(s, id, choice, written)
    case UpdateRequest(task) => OnToggleComplete(s, task, written)
  }

  /** The detail screen is in step with the list when its snapshot is the
      stored task at `i` and its local flag is that task's flag. */
  ghost predicate InStep(s: HomeState, d: Detail, i: int) {
    UniqueIds(s.tasks) && 0 <= i < |s.tasks| && d.snapshot.id == s.tasks[i].id
    && d.completed == s.tasks[i].completed
  }

  /** Toggling from the detail screen keeps it in step with the list when
      the write succeeds. When it fails the list is unchanged but the local
      flag has flipped anyway, so the screen shows the opposite of what is
      stored. */
  lemma DetailToggleStaysInStep(s: HomeState, d: Detail, i: int, written: bool)
    requires InStep(s, d, i)
    ensures var out := HandleToggleComplete(d);
      var s' := Dispatch(s, out.update, Cancel, written);
      (written ==> InStep(s', out.detail, i)) && (!written ==> s' == s && !InStep(s', out.detail, i))
  {
  }

  /** Deleting from the detail screen and confirming removes exactly the
      snapshot's task, whatever was edited locally. */
  lemma DeleteFromDetailRemovesSnapshot(s: HomeState, d: Detail, i: int, events: seq<LocalEvent>)
    requires UniqueIds(s.tasks) && 0 <= i < |s.tasks| && d.snapshot == s.tasks[i]
    ensures Dispatch(s, HandleDelete(ApplyAll(d, events)), Delete, true).tasks
         == s.tasks[..i] + s.tasks[i + 1..]
  {
    LocalEditsAreNeverSent(d, events);
    RemoveUniqueIdCutsOne(s.tasks, i);
  }

  /** The callbacks as the detail screen actually holds them: they were
      passed as navigation parameters when the screen was opened, so they
      close over the list `bound` of that moment and compute the new list
      from it, while the result replaces the list of the `current` state. */
  function DispatchBound(bound: HomeState, current: HomeState, c: Command,
                         choice: DeleteChoice, written: bool): (r: HomeState)
    ensures !written || (c.DeleteRequest? && choice == Cancel) ==> r == current
    ensures c.UpdateRequest? && written ==> r.tasks == ToggleId(bound.tasks, c.task.id)
    ensures c.DeleteRequest? && choice == Delete && written ==> r.tasks == RemoveId(bound.tasks, c.id)
    ensures r.showCompleted == current.showCompleted && r.searchQuery == current.searchQuery
  {
    var proposed := Dispatch(bound, c, choice, true).tasks;
    if written && (c.UpdateRequest? || choice == Delete) then current.(tasks := proposed) else current
  }

  /** For the first command of a visit, when the list has not changed since
      the screen was opened, the callbacks as written and `Dispatch` agree. */
  lemma FirstCommandAgrees(s: HomeState, c: Command, choice: DeleteChoice, written: bool)
    ensures DispatchBound(s, s, c, choice, written) == Dispatch(s, c, choice, written)
  {
  }

  /** With the callbacks bound at opening time, toggling twice from one
      visit of the detail screen flips the stored task only once: the second
      toggle recomputes from the list before the first. The screen then
      shows the task's original flag while the list stores it flipped. */
  lemma StaleToggleTwiceDiverges(s: HomeState, i: int)
    requires UniqueIds(s.tasks) && 0 <= i < |s.tasks|
    ensures var first := HandleToggleComplete(Seed(s.tasks[i]));
      var s1 := DispatchBound(s, s, first.update, Cancel, true);
      var second := HandleToggleComplete(first.detail);
      var s2 := DispatchBound(s, s1, second.update, Cancel, true);
      s2.tasks == s.tasks[..i] + [s.tasks[i].(completed := !s.tasks[i].completed)] + s.tasks[i + 1..]
      && second.detail.completed == s.tasks[i].completed
      && !InStep(s2, second.detail, i)
  {
  }

  /** Dispatching against the current list instead restores the list after
      two toggles and keeps the screen in step. */
  lemma CurrentToggleTwiceStaysInStep(s: HomeState, i: int)
    requires UniqueIds(s.tasks) && 0 <= i < |s.tasks|
    ensures var first := HandleToggleComplete(Seed(s.tasks[i]));
      var s1 := Dispatch(s, first.update, Cancel, true);
      var second := HandleToggleComplete(first.detail);
      var s2 := Dispatch(s1, second.update, Cancel, true);
      s2 == s && InStep(s2, second.detail, i)
  {
  }

  /** An example run of the application, in three steps on an empty list:
      add "Buy milk" with low priority and no date, toggle it from its detail
      screen, then delete it after confirming. */
  const MilkTitle: string := "Buy milk"

  function Milk(id: string): Task {
    Task(id, MilkTitle, "", Low, false, None)
  }

  /** Adding the task: one pending task, shown in the pending view. */
  lemma BuyMilkAdded(now: Timestamp, id: string)
    ensures var added := Submit(Initial, CreateTask.EditTitle(InitialForm, MilkTitle), now, id, true).home;
      added.tasks == [Milk(id)]
      && BucketCount(added.tasks, false) == 1 && BucketCount(added.tasks, true) == 0
      && FilteredTasks(added) == [Milk(id)]
  {
    var f := CreateTask.EditTitle(InitialForm, MilkTitle);
    assert !IsWhitespace(f.title[0]);
    PresentTitleAndDateAccepted(f, now, 0);
    var added := Submit(Initial, f, now, id, true).home;
    assert added.tasks == [] + [Milk(id)];
    EmptyQueryShowsWholeBucket(added);
  }

  /** Toggling it: no pending task, one completed, the pending view empty. */
  lemma BuyMilkToggled(id: string)
    ensures var s := HomeState([Milk(id)], false, "");
      var toggled := Dispatch(s, HandleToggleComplete(Seed(Milk(id))).update, Cancel, true);
      toggled.tasks == [Milk(id).(completed := true)]
      && BucketCount(toggled.tasks, false) == 0 && BucketCount(toggled.tasks, true) == 1
      && FilteredTasks(toggled) == []
  {
  }

  /** Deleting it after confirmation: an empty list, both counters zero and
      the empty-state placeholder in either view. */
  lemma BuyMilkDeleted(id: string, showCompleted: bool)
    ensures var s := HomeState([Milk(id).(completed := true)], showCompleted, "");
      var deleted := Dispatch(s, HandleDelete(Seed(Milk(id).(completed := true))), Delete, true);
      deleted.tasks == [] && BucketCount(deleted.tasks, false) == 0
      && BucketCount(deleted.tasks, true) == 0 && FilteredTasks(deleted) == []
  {
  }
}

=== FILE: home.dfy ===
/**
  The Home screen's task list: the in-memory list and the view state
  around it, with the operations that load, filter, count, add, delete and
  toggle tasks. Every mutation first writes the whole new list to storage
  and only replaces the in-memory list when that write succeeded; the
  outcome of the write is the parameter `written`.
 */
module Home {
  import opened Optional
  import opened Tasks
  import opened Seqs
  import opened Text

  /** The screen's state: the task list, which bucket is shown (pending when
      `showCompleted` is false) and the search box's text. */
  datatype HomeState = HomeState(tasks: seq<Task>, showCompleted: bool, searchQuery: string)

  /** The state on mount: no tasks, the pending bucket, an empty search. */
  const Initial: HomeState := HomeState([], false, "")

  /** What reading the saved list can yield: no saved value (or an empty
      one), a read or parse failure, or the parsed list. */
  datatype StorageRead = NothingSaved | ReadFailed | Parsed(saved: seq<Task>)

  /** `loadTasks`: a parsed list replaces the tasks; anything else is
      swallowed and the tasks stay as they were. */
  function LoadTasks(s: HomeState, read: StorageRead): (r: HomeState)
    ensures r.showCompleted == s.showCompleted && r.searchQuery == s.searchQuery
    ensures read.Parsed? ==> r.tasks == read.saved
    ensures !read.Parsed? ==> r.tasks == s.tasks
  {
    match read
    case Parsed(saved) => s.(tasks := saved)
    case _ => s
  }

  /** Loading on mount without a saved list leaves the list empty. */
  lemma LoadWithoutSavedListIsEmpty(read: StorageRead)
    requires !read.Parsed?
    ensures LoadTasks(Initial, read).tasks == []
    ensures BucketCount(LoadTasks(Initial, read).tasks, false) == 0
    ensures BucketCount(LoadTasks(Initial, read).tasks, true) == 0
  {
  }

  /** The task belongs to the bucket on screen. */
  predicate InBucket(t: Task, showCompleted: bool) {
    if showCompleted then t.completed else !t.completed
  }

  /** The lower-cased title contains the lower-cased query. */
  predicate TitleMatches(t: Task, query: string) {
    Includes(ToLower(t.title), ToLower(query))
  }

  /** The task passes both filters of the list. */
  predicate Visible(t: Task, showCompleted: bool, query: string) {
    InBucket(t, showCompleted) && TitleMatches(t, query)
  }

  /** The filter callbacks of the screen, as named predicates on tasks. */
  function IsVisible(showCompleted: bool, query: string): Task -> bool {
    t => Visible(t, showCompleted, query)
  }

  function IsInBucket(showCompleted: bool): Task -> bool {
    t => InBucket(t, showCompleted)
  }

  function HasTitleMatching(query: string): Task -> bool {
    t => TitleMatches(t, query)
  }

  function HasCompleted(completed: bool): Task -> bool {
    (t: Task) => t.completed == completed
  }

  function HasOtherId(id: string): Task -> bool {
    (t: Task) => t.id != id
  }

  /** The list on screen: the tasks of the active bucket whose title
      contains the query, ignoring ASCII case, in list order. */
  function FilteredTasks(s: HomeState): (r: seq<Task>)
    ensures IsSubsequence(r, s.tasks)
    ensures forall k :: 0 <= k < |r| ==>
      InBucket(r[k], s.showCompleted) && TitleMatches(r[k], s.searchQuery)
    ensures forall k :: 0 <= k < |s.tasks| && Visible(s.tasks[k], s.showCompleted, s.searchQuery) ==>
      multiset(r)[s.tasks[k]] == multiset(s.tasks)[s.tasks[k]]
    ensures multiset(r) <= multiset(s.tasks)
  {
    FilterSpec(s.tasks, IsVisible(s.showCompleted, s.searchQuery));
    Filter(s.tasks, IsVisible(s.showCompleted, s.searchQuery))
  }

  /** The title test is a substring test on the lower-cased strings. */
  lemma TitleMatchesIffOccurs(t: Task, query: string)
    ensures TitleMatches(t, query) <==> IsSubstring(ToLower(query), ToLower(t.title))
  {
    IncludesIffOccurs(ToLower(t.title), ToLower(query));
  }

  /** A task is on screen exactly when it is in the list, in the active
      bucket, and its title matches the query. */
  lemma FilteredMembership(s: HomeState, t: Task)
    ensures t in FilteredTasks(s) <==>
      t in s.tasks && InBucket(t, s.showCompleted) && TitleMatches(t, s.searchQuery)
  {
    FilterMembership(s.tasks, IsVisible(s.showCompleted, s.searchQuery), t);
    assert IsVisible(s.showCompleted, s.searchQuery)(t) == Visible(t, s.showCompleted, s.searchQuery);
  }

  /** The two filters are combined by AND: the view is the search applied
      to the bucket. */
  lemma FilteredIsSearchWithinBucket(s: HomeState)
    ensures FilteredTasks(s) ==
      Filter(Filter(s.tasks, IsInBucket(s.showCompleted)), HasTitleMatching(s.searchQuery))
  {
    FilterConjunction(s.tasks, IsVisible(s.showCompleted, s.searchQuery),
      IsInBucket(s.showCompleted), HasTitleMatching(s.searchQuery));
  }

  /** With an empty search the view is the whole active bucket, and its
      length is that bucket's counter. */
  lemma EmptyQueryShowsWholeBucket(s: HomeState)
    requires s.searchQuery == ""
    ensures FilteredTasks(s) == Filter(s.tasks, IsInBucket(s.showCompleted))
    ensures |FilteredTasks(s)| == BucketCount(s.tasks, s.showCompleted)
  {
    forall k | 0 <= k < |s.tasks|
      ensures TitleMatches(s.tasks[k], "")
    {
      IncludesEmpty(ToLower(s.tasks[k].title));
    }
    FilterExtensional(s.tasks, IsVisible(s.showCompleted, s.searchQuery), IsInBucket(s.showCompleted));
    FilterExtensional(s.tasks, IsInBucket(s.showCompleted), HasCompleted(s.showCompleted));
  }

  /** The counter badge of a bucket: how many tasks of the whole list have
      that completion flag, whatever the search and the active bucket. */
  function BucketCount(tasks: seq<Task>, completed: bool): (n: nat)
    ensures n <= |tasks|
    ensures n == 0 <==> forall k :: 0 <= k < |tasks| ==> tasks[k].completed != completed
  {
    FilterEmptyIffNone(tasks, HasCompleted(completed));
    |Filter(tasks, HasCompleted(completed))|
  }

  /** The two counters add up to the length of the list. */
  lemma CountsSumToLength(tasks: seq<Task>)
    ensures BucketCount(tasks, false) + BucketCount(tasks, true) == |tasks|
  {
    FilterPartition(tasks, HasCompleted(false), HasCompleted(true));
  }

  /** Switching the bucket or typing a search changes the view, never the
      counters, since both depend on the list alone. */
  lemma CountersIgnoreViewState(s: HomeState, showCompleted: bool, query: string, completed: bool)
    ensures BucketCount(ShowBucket(s, showCompleted).tasks, completed) == BucketCount(s.tasks, completed)
    ensures BucketCount(Search(s, query).tasks, completed) == BucketCount(s.tasks, completed)
  {
  }

  /** Adopts the proposed list only when it was written to storage. */
  function Commit(s: HomeState, proposed: seq<Task>, written: bool): HomeState {
    if written then s.(tasks := proposed) else s
  }

  /** `saveTask`: appends a new pending task built from the arguments. */
  function SaveTask(s: HomeState, id: string, title: string, description: string,
                    priority: string, dueDate: Option<Timestamp>, written: bool): (r: HomeState)
    ensures !written ==> r == s
    ensures written ==> |r.tasks| == |s.tasks| + 1 && r.tasks[..|s.tasks|] == s.tasks
    ensures written ==> r.tasks[|s.tasks|] == Task(id, title, description, priority, false, dueDate)
    ensures r.showCompleted == s.showCompleted && r.searchQuery == s.searchQuery
  {
    Commit(s, s.tasks + [Task(id, title, description, priority, false, dueDate)], written)
  }

  /** The list without any task whose id is `id`, in the original order. */
  function RemoveId(tasks: seq<Task>, id: string): (r: seq<Task>)
    ensures forall k :: 0 <= k < |r| ==> r[k].id != id
    ensures forall k :: 0 <= k < |tasks| && tasks[k].id != id ==>
      multiset(r)[tasks[k]] == multiset(tasks)[tasks[k]]
    ensures multiset(r) <= multiset(tasks)
    ensures IsSubsequence(r, tasks)
  {
    FilterSpec(tasks, HasOtherId(id));
    Filter(tasks, HasOtherId(id))
  }

  /** Removing an id no task has changes nothing. */
  lemma RemoveAbsentIdIsIdentity(tasks: seq<Task>, id: string)
    requires forall k :: 0 <= k < |tasks| ==> tasks[k].id != id
    ensures RemoveId(tasks, id) == tasks
  {
    FilterKeepsAll(tasks, HasOtherId(id));
  }

  /** With unique ids, removing the id of the task at `i` cuts out exactly
      that task, so the list shrinks by one. */
  lemma RemoveUniqueIdCutsOne(tasks: seq<Task>, i: int)
    requires UniqueIds(tasks)
    requires 0 <= i < |tasks|
    ensures RemoveId(tasks, tasks[i].id) == tasks[..i] + tasks[i + 1..]
    ensures |RemoveId(tasks, tasks[i].id)| == |tasks| - 1
  {
    var id := tasks[i].id;
    var keep := HasOtherId(id);
    assert tasks == tasks[..i] + ([tasks[i]] + tasks[i + 1..]);
    FilterConcat(tasks[..i], [tasks[i]] + tasks[i + 1..], keep);
    FilterConcat([tasks[i]], tasks[i + 1..], keep);
    FilterKeepsAll(tasks[..i], keep);
    FilterKeepsAll(tasks[i + 1..], keep);
  }

  /** `deleteTask`: drops every task with the given id. */
  function DeleteTask(s: HomeState, id: string, written: bool): (r: HomeState)
    ensures !written ==> r == s
    ensures written ==> r.tasks == RemoveId(s.tasks, id)
    ensures written ==> forall k :: 0 <= k < |r.tasks| ==> r.tasks[k].id != id
    ensures r.showCompleted == s.showCompleted && r.searchQuery == s.searchQuery
  {
    Commit(s, RemoveId(s.tasks, id), written)
  }

  /** The two buttons of the delete confirmation: "Cancelar" and "Excluir". */
  datatype DeleteChoice = Cancel | Delete

  /** `confirmDelete`: only the destructive choice deletes. */
  function ConfirmDelete(s: HomeState, id: string, choice: DeleteChoice, written: bool): (r: HomeState)
    ensures choice == Cancel ==> r == s
    ensures choice == Delete ==> r == DeleteTask(s, id, written)
  {
    match choice
    case Cancel => s
    case Delete => DeleteTask(s, id, written)
  }

  /** Flips `completed` on every task whose id is `id`; every other field
      and every other task stays as it was. */
  function ToggleId(tasks: seq<Task>, id: string): (r: seq<Task>)
    ensures |r| == |tasks|
    ensures forall k :: 0 <= k < |tasks| && tasks[k].id != id ==> r[k] == tasks[k]
    ensures forall k :: 0 <= k < |tasks| && tasks[k].id == id ==>
      r[k] == tasks[k].(completed := !tasks[k].completed)
  {
    if |tasks| == 0 then []
    else
      var t := tasks[0];
      [if t.id == id then t.(completed := !t.completed) else t] + ToggleId(tasks[1..], id)
  }

  /** Toggling the same id twice restores the list. */
  lemma ToggleIdTwice(tasks: seq<Task>, id: string)
    ensures ToggleId(ToggleId(tasks, id), id) == tasks
  {
  }

  /** `onToggleComplete`: flips the stored task with the same id as the
      record passed in; the other fields of that record, its `completed`
      flag included, play no part. */
  function OnToggleComplete(s: HomeState, updated: Task, written: bool): (r: HomeState)
    ensures !written ==> r == s
    ensures written ==> r.tasks == ToggleId(s.tasks, updated.id)
    ensures r.showCompleted == s.showCompleted && r.searchQuery == s.searchQuery
  {
    Commit(s, ToggleId(s.tasks, updated.id), written)
  }

  /** Two successful toggles for the same id restore the state, whatever
      else the two records passed in hold. */
  lemma ToggleTwiceRestores(s: HomeState, first: Task, second: Task)
    requires first.id == second.id
    ensures OnToggleComplete(OnToggleComplete(s, first, true), second, true) == s
  {
  }

  /** With unique ids, toggling the id of the task at `i` flips that task
      alone. */
  lemma ToggleUniqueIdFlipsOne(tasks: seq<Task>, i: int)
    requires UniqueIds(tasks)
    requires 0 <= i < |tasks|
    ensures ToggleId(tasks, tasks[i].id)
         == tasks[..i] + [tasks[i].(completed := !tasks[i].completed)] + tasks[i + 1..]
  {
    var r := ToggleId(tasks, tasks[i].id);
    var expected := tasks[..i] + [tasks[i].(completed := !tasks[i].completed)] + tasks[i + 1..];
    forall k | 0 <= k < |tasks|
      ensures r[k] == expected[k]
    {
      if k < i {
        assert tasks[k].id != tasks[i].id;
      } else if k > i {
        assert tasks[i].id != tasks[k].id;
      }
    }
  }

  /** A counter over a concatenation is the sum of the counters. */
  lemma BucketCountConcat(a: seq<Task>, b: seq<Task>, completed: bool)
    ensures BucketCount(a + b, completed) == BucketCount(a, completed) + BucketCount(b, completed)
  {
    FilterConcat(a, b, HasCompleted(completed));
  }

  /** With unique ids, toggling the task at `i` moves it from its bucket to
      the other: one counter drops by one and the other grows by one. */
  lemma ToggleMovesBetweenBuckets(tasks: seq<Task>, i: int)
    requires UniqueIds(tasks)
    requires 0 <= i < |tasks|
    ensures BucketCount(ToggleId(tasks, tasks[i].id), tasks[i].completed)
         == BucketCount(tasks, tasks[i].completed) - 1
    ensures BucketCount(ToggleId(tasks, tasks[i].id), !tasks[i].completed)
         == BucketCount(tasks, !tasks[i].completed) + 1
  {
    var t := tasks[i];
    var flipped := t.(completed := !t.completed);
    var before, after := tasks[..i], tasks[i + 1..];
    assert tasks == before + [t] + after;
    ToggleUniqueIdFlipsOne(tasks, i);
    forall c: bool
      ensures BucketCount(ToggleId(tasks, t.id), c)
           == BucketCount(before, c) + BucketCount([flipped], c) + BucketCount(after, c)
      ensures BucketCount(tasks, c)
           == BucketCount(before, c) + BucketCount([t], c) + BucketCount(after, c)
    {
      BucketCountConcat(before + [flipped], after, c);
      BucketCountConcat(before, [flipped], c);
      BucketCountConcat(before + [t], after, c);
      BucketCountConcat(before, [t], c);
    }
  }

  /** Selecting a bucket with its tab: the view switches to that bucket,
      still searched by the same query, and the list is untouched. */
  function ShowBucket(s: HomeState, completed: bool): (r: HomeState)
    ensures r.tasks == s.tasks && r.searchQuery == s.searchQuery && r.showCompleted == completed
    ensures forall t :: t in FilteredTasks(r) <==>
      t in s.tasks && InBucket(t, completed) && TitleMatches(t, s.searchQuery)
  {
    var r := s.(showCompleted := completed);
    forall t ensures t in FilteredTasks(r) <==>
      t in s.tasks && InBucket(t, completed) && TitleMatches(t, s.searchQuery)
    {
      FilteredMembership(r, t);
    }
    r
  }

  /** Typing in the search box: the view narrows to the active bucket's
      tasks whose title contains the new query, and the list is untouched. */
  function Search(s: HomeState, query: string): (r: HomeState)
    ensures r.tasks == s.tasks && r.showCompleted == s.showCompleted && r.searchQuery == query
    ensures forall t :: t in FilteredTasks(r) <==>
      t in s.tasks && InBucket(t, s.showCompleted) && TitleMatches(t, query)
  {
    var r := s.(searchQuery := query);
    forall t ensures t in FilteredTasks(r) <==>
      t in s.tasks && InBucket(t, s.showCompleted) && TitleMatches(t, query)
    {
      FilteredMembership(r, t);
    }
    r
  }
}

=== FILE: optional.dfy ===
/**
  A value that may be absent: the model of a JavaScript `Date | null` and of
  other nullable values the application passes around.
 */
module Optional {

  datatype Option<+T> = None | Some(value: T) {

    /** JavaScript's `x || fallback` when `x` is an object or null: an object
        is always truthy, so a present value wins. */
    function OrElse(fallback: Option<T>): Option<T> {
      if Some? then this else fallback
    }
  }
}

=== FILE: seqs.dfy ===
/**
  Order-preserving filtering of sequences, the model of JavaScript's
  `Array.prototype.filter`, with the facts the task list relies on.
 */
module Seqs {

  /** `a` can be obtained from `b` by dropping elements, without reordering. */
  predicate IsSubsequence<T(==)>(a: seq<T>, b: seq<T>)
    decreases |b|
  {
    |a| == 0 ||
    (|b| > 0 && ((a[0] == b[0] && IsSubsequence(a[1..], b[1..])) || IsSubsequence(a, b[1..])))
  }

  /** The elements of `s` that satisfy `p`, in their original order. */
  function Filter<T>(s: seq<T>, p: T -> bool): (r: seq<T>)
    ensures |r| <= |s|
    ensures forall k :: 0 <= k < |r| ==> p(r[k])
  {
    if |s| == 0 then []
    else if p(s[0]) then [s[0]] + Filter(s[1..], p)
    else Filter(s[1..], p)
  }

  /** `Filter` keeps every occurrence of every element satisfying `p`,
      nothing else, and in order; together these pin its result down. */
  lemma {:induction false} FilterSpec<T>(s: seq<T>, p: T -> bool)
    ensures forall k :: 0 <= k < |s| && p(s[k]) ==>
      multiset(Filter(s, p))[s[k]] == multiset(s)[s[k]]
    ensures multiset(Filter(s, p)) <= multiset(s)
    ensures IsSubsequence(Filter(s, p), s)
  {
    if |s| > 0 {
      FilterSpec(s[1..], p);
      assert s == [s[0]] + s[1..];
      var rest := Filter(s[1..], p);
      if p(s[0]) {
        assert ([s[0]] + rest)[1..] == rest;
      }
    }
  }

  /** An element is kept exactly when it occurs and satisfies `p`. */
  lemma FilterMembership<T>(s: seq<T>, p: T -> bool, x: T)
    ensures x in Filter(s, p) <==> x in s && p(x)
  {
  }

  /** Filtering by `p` and by its complement `q` splits `s` without loss. */
  lemma {:induction false} FilterPartition<T>(s: seq<T>, p: T -> bool, q: T -> bool)
    requires forall k :: 0 <= k < |s| ==> q(s[k]) == !p(s[k])
    ensures |Filter(s, p)| + |Filter(s, q)| == |s|
  {
    if |s| > 0 {
      FilterPartition(s[1..], p, q);
    }
  }

  /** Filtering by a conjunction `both` of `p` and `q` is filtering twice. */
  lemma {:induction false} FilterConjunction<T>(s: seq<T>, both: T -> bool, p: T -> bool, q: T -> bool)
    requires forall k :: 0 <= k < |s| ==> both(s[k]) == (p(s[k]) && q(s[k]))
    ensures Filter(s, both) == Filter(Filter(s, p), q)
  {
    if |s| > 0 {
      FilterConjunction(s[1..], both, p, q);
      if p(s[0]) {
        var rest := Filter(s[1..], p);
        assert ([s[0]] + rest)[1..] == rest;
      }
    }
  }

  /** Two predicates that agree on the elements of `s` filter it alike. */
  lemma {:induction false} FilterExtensional<T>(s: seq<T>, p: T -> bool, q: T -> bool)
    requires forall k :: 0 <= k < |s| ==> p(s[k]) == q(s[k])
    ensures Filter(s, p) == Filter(s, q)
  {
    if |s| > 0 {
      FilterExtensional(s[1..], p, q);
    }
  }

  /** A predicate that holds of every element keeps the whole sequence. */
  lemma {:induction false} FilterKeepsAll<T>(s: seq<T>, p: T -> bool)
    requires forall k :: 0 <= k < |s| ==> p(s[k])
    ensures Filter(s, p) == s
  {
    if |s| > 0 {
      FilterKeepsAll(s[1..], p);
      assert s == [s[0]] + s[1..];
    }
  }

  /** Filtering distributes over concatenation. */
  lemma {:induction false} FilterConcat<T>(a: seq<T>, b: seq<T>, p: T -> bool)
    ensures Filter(a + b, p) == Filter(a, p) + Filter(b, p)
  {
    if |a| == 0 {
      assert a + b == b;
    } else {
      assert (a + b)[1..] == a[1..] + b;
      FilterConcat(a[1..], b, p);
    }
  }

  /** Filtering keeps nothing exactly when no element satisfies `p`. */
  lemma {:induction false} FilterEmptyIffNone<T>(s: seq<T>, p: T -> bool)
    ensures Filter(s, p) == [] <==> forall k :: 0 <= k < |s| ==> !p(s[k])
  {
    if |s| > 0 {
      FilterEmptyIffNone(s[1..], p);
    }
  }
}

=== FILE: task_detail.dfy ===
/**
  The detail screen of one task. It copies the task it was opened with into
  local state; only the completion toggle and the delete button reach the
  list, through the update and delete callbacks, and both are built from
  the original snapshot rather than from the local edits.
 */
module TaskDetail {
  import opened Optional
  import opened Tasks

  /** The screen's state: the snapshot it was opened with, the local copies
      of the editable fields, and the two picker flags. */
  datatype Detail = Detail(
    snapshot: Task,
    title: string,
    description: string,
    priority: string,
    completed: bool,
    dueDate: Option<Timestamp>,
    showPicker: bool,
    showPriorityPicker: bool)

  /** What the screen asks of the list. */
  datatype Command = DeleteRequest(id: string) | UpdateRequest(task: Task)

  /** The state on opening the screen for `task`. */
  function Seed(task: Task): (d: Detail)
    ensures d.snapshot == task
    ensures !d.showPicker && !d.showPriorityPicker
  {
    Detail(task, task.title, task.description, task.priority, task.completed, task.dueDate, false, false)
  }

  /** The task as the screen currently shows it. */
  function Shown(d: Detail): Task {
    Task(d.snapshot.id, d.title, d.description, d.priority, d.completed, d.dueDate)
  }

  /** The local fields start as copies of the snapshot's. */
  lemma SeedShowsSnapshot(task: Task)
    ensures Shown(Seed(task)) == task
  {
  }

  /** `handleDelete`: asks for the snapshot's id to be deleted. */
  function HandleDelete(d: Detail): (c: Command)
    ensures c.DeleteRequest? && c.id == d.snapshot.id
  {
    DeleteRequest(d.snapshot.id)
  }

  /** Local edits do not change what is deleted. */
  lemma DeleteIgnoresLocalEdits(d: Detail)
    ensures HandleDelete(d) == HandleDelete(Seed(d.snapshot))
  {
  }

  /** The update sent by the toggle and the screen's state afterwards. */
  datatype ToggleOutcome = ToggleOutcome(update: Command, detail: Detail)

  /** `handleToggleComplete`: sends the snapshot with `completed` set to the
      negation of the local flag, then flips the local flag. */
  function HandleToggleComplete(d: Detail): (r: ToggleOutcome)
    ensures r.update.UpdateRequest?
    ensures r.update.task.completed == !d.completed
    ensures r.update.task.(completed := d.snapshot.completed) == d.snapshot
    ensures r.detail.completed == !d.completed
    ensures r.detail.(completed := d.completed) == d
  {
    var flipped := !d.completed;
    ToggleOutcome(UpdateRequest(d.snapshot.(completed := flipped)), d.(completed := flipped))
  }

  /** The record sent by the toggle depends on the snapshot and the local
      flag alone: local title, description, priority and date edits are
      never sent. */
  lemma ToggleIgnoresLocalEdits(d: Detail, title: string, description: string,
                                priority: string, dueDate: Option<Timestamp>)
    ensures HandleToggleComplete(d.(title := title, description := description,
                                    priority := priority, dueDate := dueDate)).update
         == HandleToggleComplete(d).update
  {
  }

  /** Two toggles restore the screen, and the two records sent carry
      opposite flags. */
  lemma ToggleTwiceRestoresDetail(d: Detail)
    ensures HandleToggleComplete(HandleToggleComplete(d).detail).detail == d
    ensures HandleToggleComplete(HandleToggleComplete(d).detail).update.task.completed
         == !HandleToggleComplete(d).update.task.completed
  {
  }

  /** The date picker's `onChange` for an event of type `eventType`. The
      picker always closes; only a `"set"` event that carries a date
      changes the local due date. */
  function OnDateChange(d: Detail, eventType: string, selected: Option<Timestamp>): (r: Detail)
    ensures !r.showPicker
    ensures eventType == "set" && selected.Some? ==> r.dueDate == selected
    ensures !(eventType == "set" && selected.Some?) ==> r.dueDate == d.dueDate
    ensures r.(dueDate := d.dueDate, showPicker := d.showPicker) == d
  {
    if eventType == "set" then
      d.(showPicker := false, dueDate := selected.OrElse(d.dueDate))
    else
      d.(showPicker := false)
  }

  /** `handlePrioritySelect`: sets the local priority and closes the list
      of levels; nothing is sent to the list. */
  function HandlePrioritySelect(d: Detail, level: string): (r: Detail)
    ensures r.priority == level && !r.showPriorityPicker
    ensures r.(priority := d.priority, showPriorityPicker := d.showPriorityPicker) == d
  {
    d.(priority := level, showPriorityPicker := false)
  }

  /** Typing in the title field. */
  function EditTitle(d: Detail, title: string): (r: Detail)
    ensures r.title == title && r.(title := d.title) == d
  {
    d.(title := title)
  }

  /** Typing in the description field. */
  function EditDescription(d: Detail, description: string): (r: Detail)
    ensures r.description == description && r.(description := d.description) == d
  {
    d.(description := description)
  }

  /** Pressing the date field. */
  function OpenDatePicker(d: Detail): (r: Detail)
    ensures r.showPicker && r.(showPicker := d.showPicker) == d
  {
    d.(showPicker := true)
  }

  /** Pressing the priority field. */
  function OpenPriorityPicker(d: Detail): (r: Detail)
    ensures r.showPriorityPicker && r.(showPriorityPicker := d.showPriorityPicker) == d
  {
    d.(showPriorityPicker := true)
  }

  /** The user's interactions with the screen that stay local. */
  datatype LocalEvent =
    | TypeTitle(title: string)
    | TypeDescription(description: string)
    | PressDate
    | DateEvent(eventType: string, selected: Option<Timestamp>)
    | PressPriority
    | PickPriority(level: string)

  function Apply(d: Detail, e: LocalEvent): Detail {
    match e
    case TypeTitle(title) => EditTitle(d, title)
    case TypeDescription(description) => EditDescription(d, description)
    case PressDate => OpenDatePicker(d)
    case DateEvent(eventType, selected) => OnDateChange(d, eventType, selected)
    case PressPriority => OpenPriorityPicker(d)
    case PickPriority(level) => HandlePrioritySelect(d, level)
  }

  /** The screen after a run of local interactions. */
  function ApplyAll(d: Detail, events: seq<LocalEvent>): Detail
    decreases |events|
  {
    if |events| == 0 then d else ApplyAll(Apply(d, events[0]), events[1..])
  }

  /** Local interactions never touch the snapshot or the completion flag,
      so whatever the user edits, the toggle then sends the same record and
      the delete button the same id. */
  lemma {:induction false} LocalEditsAreNeverSent(d: Detail, events: seq<LocalEvent>)
    ensures ApplyAll(d, events).snapshot == d.snapshot
    ensures ApplyAll(d, events).completed == d.completed
    ensures HandleToggleComplete(ApplyAll(d, events)).update == HandleToggleComplete(d).update
    ensures HandleDelete(ApplyAll(d, events)) == HandleDelete(d)
    decreases |events|
  {
    if |events| > 0 {
      LocalEditsAreNeverSent(Apply(d, events[0]), events[1..]);
    }
  }
}

=== FILE: tasks.dfy ===
/**
  The one persistent entity of the application: a to-do item.
 */
module Tasks {
  import opened Optional

  /** A JavaScript `Date`, as its millisecond timestamp. */
  type Timestamp = int

  /** A task. `id` is the decimal string of the creation timestamp;
      `priority` is one of the labels below, stored as plain text;
      `dueDate` is absent when no date was picked. */
  datatype Task = Task(
    id: string,
    title: string,
    description: string,
    priority: string,
    completed: bool,
    dueDate: Option<Timestamp>)

  /** The three priority labels offered by the pickers, lowest first. */
  const Low: string := "Baixa"
  const Medium: string := "Média"
  const High: string := "Alta"
  const PriorityLevels: seq<string> := [Low, Medium, High]

  /** No two tasks of the list share an id. The application does not enforce
      this: ids are creation times, so two tasks made in the same
      millisecond collide. */
  ghost predicate UniqueIds(tasks: seq<Task>) {
    forall i, j :: 0 <= i < j < |tasks| ==> tasks[i].id != tasks[j].id
  }
}

=== FILE: text.dfy ===
/**
  The three JavaScript string operations the task list depends on:
  `String.prototype.trim`, `toLowerCase` (ASCII letters only) and `includes`.
 */
module Text {

  /** The ECMAScript WhiteSpace and LineTerminator code points, which `trim`
      strips from both ends of a string. */
  predicate IsWhitespace(c: char) {
    var n := c as int;
    n == 0x09 || n == 0x0A || n == 0x0B || n == 0x0C || n == 0x0D || n == 0x20
    || n == 0xA0 || n == 0x1680 || (0x2000 <= n <= 0x200A)
    || n == 0x2028 || n == 0x2029 || n == 0x202F || n == 0x205F
    || n == 0x3000 || n == 0xFEFF
  }

  /** `s` without its leading whitespace: a suffix of `s` that does not
      start with whitespace, and everything dropped is whitespace. */
  function TrimStart(s: string): (r: string)
    ensures |r| <= |s| && r == s[|s| - |r|..]
    ensures forall i :: 0 <= i < |s| - |r| ==> IsWhitespace(s[i])
    ensures |r| > 0 ==> !IsWhitespace(r[0])
  {
    if |s| > 0 && IsWhitespace(s[0]) then TrimStart(s[1..]) else s
  }

  /** `s` without its trailing whitespace: a prefix of `s` that does not
      end with whitespace, and everything dropped is whitespace. */
  function TrimEnd(s: string): (r: string)
    ensures |r| <= |s| && r == s[..|r|]
    ensures forall i :: |r| <= i < |s| ==> IsWhitespace(s[i])
    ensures |r| > 0 ==> !IsWhitespace(r[|r| - 1])
  {
    if |s| > 0 && IsWhitespace(s[|s| - 1]) then TrimEnd(s[..|s| - 1]) else s
  }

  /** `r` is the piece of `s` starting at `start`, and everything of `s`
      before and after that piece is whitespace. */
  ghost predicate TrimmedAt(s: string, r: string, start: int) {
    0 <= start <= start + |r| <= |s| && r == s[start..start + |r|]
    && (forall i :: 0 <= i < start ==> IsWhitespace(s[i]))
    && (forall i :: start + |r| <= i < |s| ==> IsWhitespace(s[i]))
  }

  /** JavaScript's `s.trim()`: a contiguous piece of `s` surrounded only by
      whitespace, which neither starts nor ends with whitespace. */
  function Trim(s: string): (r: string)
    ensures |r| <= |s|
    ensures exists start :: TrimmedAt(s, r, start)
    ensures |r| > 0 ==> !IsWhitespace(r[0]) && !IsWhitespace(r[|r| - 1])
  {
    var front := TrimStart(s);
    var r := TrimEnd(front);
    assert TrimmedAt(s, r, |s| - |front|);
    r
  }

  /** JavaScript's `!s.trim()`: the trimmed string is the falsy empty string.
      That happens exactly when stripping the leading whitespace already
      consumes the whole string. */
  predicate IsBlank(s: string): (b: bool)
    ensures b <==> TrimStart(s) == ""
  {
    Trim(s) == ""
  }

  /** A string is blank exactly when every character of it is whitespace;
      in particular the empty string is blank. */
  lemma BlankIffAllWhitespace(s: string)
    ensures IsBlank(s) <==> forall i :: 0 <= i < |s| ==> IsWhitespace(s[i])
  {
  }

  /** The ASCII part of `toLowerCase`: `A`..`Z` become `a`..`z`. */
  function ToLowerChar(c: char): char {
    if 'A' <= c <= 'Z' then (c as int + 32) as char else c
  }

  /** `toLowerCase` applied character by character. */
  function ToLower(s: string): (r: string)
    ensures |r| == |s|
    ensures forall i :: 0 <= i < |s| ==> r[i] == ToLowerChar(s[i])
    ensures forall i :: 0 <= i < |r| ==> !('A' <= r[i] <= 'Z')
  {
    if |s| == 0 then "" else [ToLowerChar(s[0])] + ToLower(s[1..])
  }

  /** Lower-casing twice is lower-casing once. */
  lemma ToLowerIdempotent(s: string)
    ensures ToLower(ToLower(s)) == ToLower(s)
  {
  }

  /** `q` occurs in `s` starting at index `i`. */
  ghost predicate OccursAt(s: string, q: string, i: int) {
    0 <= i && i + |q| <= |s| && s[i..i + |q|] == q
  }

  /** `q` is a contiguous piece of `s`. */
  ghost predicate IsSubstring(q: string, s: string) {
    exists i :: OccursAt(s, q, i)
  }

  /** JavaScript's `s.includes(q)`: does `q` occur anywhere in `s`? */
  function Includes(s: string, q: string): (b: bool)
    ensures b ==> |q| <= |s|
    ensures |q| <= |s| && s[..|q|] == q ==> b
    decreases |s|
  {
    if |q| > |s| then false
    else if s[..|q|] == q then true
    else Includes(s[1..], q)
  }

  /** `Includes` is the substring relation. */
  lemma {:induction false} IncludesIffOccurs(s: string, q: string)
    ensures Includes(s, q) <==> IsSubstring(q, s)
    decreases |s|
  {
    if |q| > |s| {
    } else if s[..|q|] == q {
      assert OccursAt(s, q, 0);
    } else {
      IncludesIffOccurs(s[1..], q);
      if exists i :: OccursAt(s, q, i) {
        var i :| OccursAt(s, q, i);
        assert i != 0;
        assert s[1..][i - 1..i - 1 + |q|] == s[i..i + |q|];
        assert OccursAt(s[1..], q, i - 1);
      }
      if exists j :: OccursAt(s[1..], q, j) {
        var j :| OccursAt(s[1..], q, j);
        assert s[1..][j..j + |q|] == s[j + 1..j + 1 + |q|];
        assert OccursAt(s, q, j + 1);
      }
    }
  }

  /** Every string includes the empty string. */
  lemma IncludesEmpty(s: string)
    ensures Includes(s, "")
  {
  }
}
